=== FILE: README.md ===
# Blockchain ledger model

A Dafny model of the `Blockchain` ledger class of a small proof-of-work
blockchain node, and of the mining sequence its `/mine` handler runs. It covers
these parts:

- the ledger state: a chain of blocks, a pool of pending transactions and a set of peer locations;
- its transitions: genesis construction, `new_block`, `new_transaction`, `last_block` and `register_node`;
- the proof-of-work puzzle (`valid_proof`, `proof_of_work`);
- the chain validator (`valid_chain`);
- the longest-valid-chain conflict resolution (`resolve_conflicts`).

Every transition is a pure function from the old ledger to the new one. The
ledger is the immutable record `Blockchain.Ledger`.

SHA-256 and the key-sorted JSON serialisation are not interpreted. They are
the two fields of a `Blocks.Hasher` value, and every operation takes it as a
parameter. `Blocks.Hash(h, b)` is `sha(canon(b))`. It is a function of the block
value, so the order in which the fields were written cannot change the digest.
`urlparse(...).netloc` is likewise a function parameter of `RegisterNode`.
Every property below holds for any choice of these functions. The one
exception is the aliasing finding, which assumes only that the hash tells two
particular blocks apart.

Modules, in dependency order:

- `Blocks` (blocks.dfy): transactions, blocks, the `previous_hash` field, the `Option`/`Result` wrappers and the block fingerprint.
- `Puzzle` (proof_of_work.dfy): decimal rendering, `valid_proof`, `proof_of_work` and its reference search.
- `Validation` (validation.dfy): the pairwise link check, the quantified validity predicate and the `valid_chain` loop.
- `Blockchain` (blockchain.dfy): the ledger record and its transitions.
- `Mining` (mining.dfy): the `mine` call sequence.
- `Consensus` (consensus.dfy): peer responses, the resolution pass and its characterisation.

Modelling decisions:

- The genesis block's `previous_hash` is the integer 1, while every other block stores a hex string. The field is therefore `Num(int) | Text(string)`. `new_block` falls back to hashing the tip when the argument is not truthy in Python's sense: `None`, `0` and `""` are not truthy.
- Python raises instead of returning in two places. Reading `chain[0]` or `chain[-1]` of an empty list raises, and `requests.get` on an unreachable peer raises. `new_block` on an empty chain with no truthy previous hash, `valid_chain([])` and `resolve_conflicts` return these as the `Failure(EmptyChain)` and `Failure(PeerUnreachable)` results. `last_block`, `new_transaction` and `mine` instead require a non-empty chain; see "## Left out". Since `resolve_conflicts` validates a peer's chain only when the reported length beats the running maximum, an empty peer chain raises only in that case.
- The peers' answers to `resolve_conflicts` are an input sequence with one entry per registered node, in the order the node set is iterated.
- `proof_of_work` ends only if a valid proof exists. The caller passes one such proof as a ghost `bound`, which is used only for termination.
- The pending pool is never cleared, as in the source. The behaviour of the shared transaction list is described under "Findings".

## Model

| member | source | states |
|---|---|---|
| Puzzle.DecimalRoundTrip | blockchain.py:50 | the decimal text of one number, as `f'{n}'` writes it, reads back to that number; information is lost only when two of them are joined without a separator (see Puzzle.GuessAmbiguous) |
| Puzzle.GuessAmbiguous | blockchain.py:50-53 | the puzzle input joins the two numbers with no separator, so proof 23 after 1 and proof 3 after 12 are valid or invalid together, whatever the hash |
| Puzzle.LeastProofFrom | blockchain.py:36-40 | the reference search returns a valid proof at or after its start, and no earlier candidate from the start is valid |
| Puzzle.ProofOfWork | blockchain.py:30-40 | counting up from 0 returns a non-negative proof that is valid for the previous proof, and every smaller non-negative number is invalid, so it is the least valid proof |
| Puzzle.LeastProofUnique | blockchain.py:36-40 | the least valid proof is unique and equals the reference search from 0, so mining's proof is deterministic |
| Validation.ValidChain | blockchain.py:103-128 | an empty chain raises; otherwise the result is true exactly when every block after the first names the digest of its predecessor and has a proof valid for its predecessor's proof; a one-block chain is valid |
| Validation.PrefixValid | blockchain.py:111-128 | every non-empty prefix of a valid chain is valid |
| Validation.AppendValid | blockchain.py:119-123 | a valid chain extended by one block stays valid exactly when that block's hash link and proof check against the old tip pass |
| Validation.TamperedChainInvalid | blockchain.py:119-123 | replacing a non-genesis block by one whose hash link or proof fails against its predecessor makes the chain invalid |
| Blockchain.LastBlock | blockchain.py:88-90 | the tip is a block of the chain, and on a chain numbered from 1 its index is the chain length |
| Blockchain.NewBlock | blockchain.py:55-70 | with no truthy previous hash on an empty chain it raises; otherwise it appends exactly one block and leaves every earlier block unchanged; the new block is numbered one past the old length, seals the pool as it was, carries the given proof, and links to the given hash or else to the digest of the old tip; numbering from 1 is preserved |
| Blockchain.Init | blockchain.py:12-19 | the new ledger has one block with index 1, no transactions, proof 100 and previous hash 1; the pool and node set are empty; the chain is numbered from 1 and is valid |
| Blockchain.NewTransaction | blockchain.py:72-86 | the chain and nodes are unchanged, exactly one transaction is appended to the end of the pool, and the result is the tip's index plus one, which on a numbered chain is the length plus one |
| Blockchain.NewTransactionLandsInNextBlock | blockchain.py:72-86 | on a chain numbered from 1, the index `new_transaction` reports is that of the next block `new_block` creates, and that block contains the transaction; a chain adopted from a peer need not be numbered from 1, because `valid_chain` never checks indices, and then the reported index can differ from the next block's |
| Blockchain.RegisterNode | blockchain.py:21-28 | the chain and pool are unchanged, and the node set afterwards holds exactly the old locations plus the network location of the address |
| Blockchain.RegisterNodeIdempotent | blockchain.py:27-28 | registering an address twice is the same as registering it once |
| Blockchain.RegisterNodeCommutes | blockchain.py:27-28 | the order of registrations does not matter, and addresses with the same network location register the same peer |
| Mining.Seal | blockchain.py:182-188 | after the proof is found, the reward (sender "0", amount 1) is appended to the pool; then exactly one block is appended, numbered one past the old length, that seals the pool, reward included, links to the digest of the old tip and carries the proof and timestamp; numbering from 1 is preserved |
| Mining.SealPreservesValidity | blockchain.py:177-188 | sealing a block whose proof is valid for the tip keeps a valid chain valid |
| Mining.Mine | blockchain.py:177-188 | mining grows the chain by exactly one block, numbered one past the old length and carrying the given timestamp, with the least valid proof for the tip's proof; the pool ends with the reward; the block links to the old tip's digest; a valid chain stays valid and a numbered chain stays numbered |
| Mining.MineDeterministic | blockchain.py:178-188 | mining twice from the same ledger with the same inputs produces the same ledger and block |
| Mining.SubmitThenMineFromGenesis | blockchain.py:72-86 | on a fresh ledger, submitting a transfer returns index 2; mining then gives a two-block chain whose new block 2 holds the transfer followed by the reward |
| Mining.NewTransactionRewritesSealedBlocks | blockchain.py:65 | because every block holds the shared pool, submitting a transaction appends it to the transactions every sealed block shows, and leaves the chain length and every other field unchanged |
| Mining.SealAliased | blockchain.py:182-188 | the mine sequence with the shared pool: exactly one block is appended and earlier blocks are kept; the nodes are unchanged; the reward joins the pool; the new block is numbered one past the old length, carries the proof and timestamp, and holds the pool; its link is the digest of the tip as it shows the new pool; numbering from 1 is preserved |
| Mining.AliasingBreaksLocalChain | blockchain.py:65 | with the shared pool, one mined block still gives a valid chain; a second mined block invalidates the node's own chain |
| Consensus.Scan | blockchain.py:141-150 | the running-maximum pass returns either the chain it started with or a chain that passed validation |
| Consensus.Resolve | blockchain.py:136-156 | a resolution never touches the pool or the nodes; when nothing is adopted the ledger is unchanged; when something is adopted the new chain is valid |
| Consensus.ResolveConflicts | blockchain.py:130-156 | with the maximum seeded by the number of peers: the pool and nodes are unchanged; with no replacement the ledger is unchanged; after a replacement the chain is valid |
| Consensus.ResolveConflictsFromChainLength | blockchain.py:139 | the same guarantees when the maximum is seeded by the local chain length |
| Consensus.ScanFailsOnUnreachable | blockchain.py:141-142 | every peer is fetched, so one unreachable peer anywhere makes the pass raise |
| Consensus.ScanSucceedsWithoutFaults | blockchain.py:141-150 | if every peer answers and every status-200 answer has a non-empty chain, the pass does not raise |
| Consensus.ScanSelects | blockchain.py:141-150 | a successful pass returns the chain it started with when no reply beats the maximum with a valid chain; otherwise it returns the chain of the first reply with the largest qualifying reported length |
| Consensus.ResolveReplacesIff | blockchain.py:148-155 | the chain is replaced exactly when some status-200 reply reports more than the baseline and has a valid chain; the adopted chain is the first such reply with the largest reported length |
| Consensus.ResolveConflictsReplacesIff | blockchain.py:136-156 | with the seeding written at line 139, replacement happens exactly when some valid status-200 reply reports more than the number of registered peers, and the first of the longest such replies wins |
| Consensus.ResolveConflictsFaults | blockchain.py:141-148 | an unreachable peer anywhere makes resolution raise; if every peer answers and every status-200 answer has a non-empty chain, resolution reports an outcome; and whenever it raises, some peer was unreachable or sent a status-200 reply with an empty chain |
| Consensus.ScanFaultHasCause | blockchain.py:141-148 | a pass that raises met an unreachable peer or a status-200 reply with an empty chain |
| Consensus.SinglePeerLongerChainAdopted | blockchain.py:136-156 | a node with one peer serving a valid chain of two or more blocks, reported with its true length, adopts that chain exactly |
| Consensus.BaselineQuirk | blockchain.py:139 | when every peer serves the same valid chain that is longer than the local one but no longer than the peer count, the code as written keeps its chain and the local-length seeding adopts the peer chain |
| Consensus.ResolveFromChainLengthGrows | blockchain.py:139-150 | with local-length seeding, replacement happens exactly when a valid status-200 reply reports more than the local length; with honest length reports the adopted chain is strictly longer |

## Left out

- The Flask routes, JSON request and response marshaling, and the missing-field 400 checks (blockchain.py:158-241) are HTTP plumbing. The `mine` call sequence is modelled.
- `requests.get` peer fetching (blockchain.py:142-146) is network I/O. Each peer's answer is an input `Response`. A malformed JSON payload, which would also raise, is not modelled: a reply is already structured.
- SHA-256 and `json.dumps(sort_keys=True)` (blockchain.py:51, blockchain.py:100-101) are foreign library calls. They are the abstract `sha` and `canon` fields of `Hasher`, and `Hash` has no contract of its own.
- `urlparse` (blockchain.py:27) is a library call, modelled as the `netloc` function parameter.
- `time()` and `uuid4` (blockchain.py:64, blockchain.py:160) are the clock and randomness. The timestamp and the node identity are plain parameters.
- The debug `print` calls in `valid_chain` (blockchain.py:116-117) are output only.
- Blockchain.LastBlock, Blockchain.NewTransaction, Mining.Seal, Mining.SealAliased, Mining.Mine: these require a non-empty chain and do not model the IndexError that `chain[-1]` raises on an empty one. For `new_transaction`, Python appends to the pool and then raises at blockchain.py:86. No reachable ledger has an empty chain: `Blockchain.Init` gives one block, `NewBlock` and `Seal` only append, and `Consensus.Resolve` adopts only chains satisfying `ChainValid`, which are non-empty.
- Puzzle.ProofOfWork: termination is not proved for an arbitrary hash. The caller must supply some valid proof as a ghost bound, and a search with no valid proof is not modelled.
- Transaction snapshots: in `Blockchain.NewBlock` and `Mining.Seal` a block's transactions are a value snapshot of the pool at the call. The Python code stores a reference to the one shared list (blockchain.py:65). That behaviour is modelled separately by `Mining.AliasedView`, `Mining.SealAliased` and `Mining.NewTransactionRewritesSealedBlocks`; see "Findings".
- Python's dynamic typing: amounts, proofs, indices and reported lengths are integers. Peer data of other JSON types is not modelled.
- Concurrent requests: every transition runs to completion before the next one starts. The Flask server (blockchain.py:241) may serve requests on separate threads, and there is no lock. So a `/mine` that read the tip at blockchain.py:178 can be overtaken by another `/mine` or by a `/nodes/resolve` that replaces the chain, and then append a block whose proof was found for a stale tip. That interleaving is not modelled, and `Mining.Mine` is atomic.

## Findings

| source | as written | input that shows it | evidently intended | confidence | as-written member | corrected member |
|---|---|---|---|---|---|---|
| blockchain.py:139 | the running maximum starts at `len(self.nodes)`, the number of peers | local chain of 1 block, 3 registered peers, each serving the same valid 3-block chain reported as length 3: 3 > 3 fails, so the longer chain is never adopted | start at `len(self.chain)`, so any valid peer chain longer than the local one is adopted | high, not executed | Consensus.BaselineQuirk | Consensus.ResolveFromChainLengthGrows |
| blockchain.py:65 | every block stores a reference to the one shared pending list, which is never cleared | genesis, then mine, then mine again: block 2 links to the digest of genesis showing one reward, but genesis now shows two, so `valid_chain` rejects the node's own chain | each block keeps a copy of the pool as it was when the block was created | high, not executed | Mining.AliasingBreaksLocalChain | Mining.Mine |

=== FILE: blockchain.dfy ===
/** The `Blockchain` ledger: a chain of blocks, the pool of pending
    transactions and the set of registered peers, with the transitions that
    build it. Every transition is a pure function from the old ledger to the
    new one. */
module Blockchain {
  import opened Blocks
  import opened Validation

  datatype Ledger = Ledger(chain: seq<Block>, pending: seq<Transaction>, nodes: set<string>)

  const GenesisProof: int := 100
  const GenesisPreviousHash: HashField := Num(1)

  /** Blocks are numbered from 1 in chain order. */
  predicate Indexed(c: seq<Block>)
  {
    forall i :: 0 <= i < |c| ==> c[i].index == i + 1
  }

  /** `last_block`: the tip of the chain. */
  function LastBlock(l: Ledger): (b: Block)
    requires |l.chain| > 0
    ensures b in l.chain
    ensures Indexed(l.chain) ==> b.index == |l.chain|
  {
    l.chain[|l.chain| - 1]
  }

  /** `new_block`: seals the whole pending pool, as it is at the call, into a
      block numbered one past the chain's length and appends it. A truthy
      `previousHash` is stored as given; otherwise the digest of the current
      tip is, which raises on an empty chain. The pool is not cleared. */
  function NewBlock(h: Hasher, l: Ledger, proof: int, previousHash: Option<HashField>, timestamp: Timestamp)
    : (r: Result<(Ledger, Block)>)
    ensures r.Failure? <==> !Truthy(previousHash) && |l.chain| == 0
    ensures r.Failure? ==> r.error == EmptyChain
    ensures r.Success? ==>
      var (l', b) := r.value;
      && l'.chain == l.chain + [b]
      && l'.pending == l.pending && l'.nodes == l.nodes
      && b.index == |l.chain| + 1
      && b.transactions == l.pending
      && b.proof == proof
      && b.timestamp == timestamp
      && (Truthy(previousHash) ==> b.previousHash == previousHash.value)
      && (!Truthy(previousHash) ==> b.previousHash == Text(Hash(h, l.chain[|l.chain| - 1])))
      && (Indexed(l.chain) ==> Indexed(l'.chain))
  {
    if !Truthy(previousHash) && |l.chain| == 0 then
      Failure(EmptyChain)
    else
      var link := if Truthy(previousHash) then previousHash.value else Text(Hash(h, LastBlock(l)));
      var b := Block(|l.chain| + 1, timestamp, l.pending, proof, link);
      Success((l.(chain := l.chain + [b]), b))
  }

  /** `__init__`: an empty ledger that `new_block` gives its genesis block. */
  function Init(h: Hasher, timestamp: Timestamp): (l: Ledger)
    ensures |l.chain| == 1
    ensures l.chain[0] == Block(1, timestamp, [], GenesisProof, GenesisPreviousHash)
    ensures l.pending == [] && l.nodes == {}
    ensures Indexed(l.chain)
    ensures ChainValid(h, l.chain)
  {
    NewBlock(h, Ledger([], [], {}), GenesisProof, Some(GenesisPreviousHash), timestamp).value.0
  }

  /** `new_transaction`: appends one transaction to the pool and returns the
      index of the block expected to hold it. */
  function NewTransaction(l: Ledger, sender: string, recipient: string, amount: int): (r: (Ledger, int))
    requires |l.chain| > 0
    ensures r.0.chain == l.chain && r.0.nodes == l.nodes
    ensures r.0.pending == l.pending + [Transaction(sender, recipient, amount)]
    ensures r.1 == LastBlock(l).index + 1
    ensures Indexed(l.chain) ==> r.1 == |l.chain| + 1
  {
    (l.(pending := l.pending + [Transaction(sender, recipient, amount)]), LastBlock(l).index + 1)
  }

  /** The index `new_transaction` reports is that of the next block, and that
      block seals the transaction. */
  lemma NewTransactionLandsInNextBlock(h: Hasher, l: Ledger, sender: string, recipient: string, amount: int,
                                       proof: int, timestamp: Timestamp)
    requires |l.chain| > 0 && Indexed(l.chain)
    ensures var (l1, k) := NewTransaction(l, sender, recipient, amount);
            var r := NewBlock(h, l1, proof, None, timestamp);
            && r.Success?
            && r.value.1.index == k
            && Transaction(sender, recipient, amount) in r.value.1.transactions
  {
  }

  /** `register_node`: adds the network location of `address`; `netloc`
      stands for `urlparse(address).netloc`. */
  function RegisterNode(l: Ledger, netloc: string -> string, address: string): (l': Ledger)
    ensures l'.chain == l.chain && l'.pending == l.pending
    ensures netloc(address) in l'.nodes
    ensures forall x :: x in l'.nodes <==> x in l.nodes || x == netloc(address)
    ensures netloc(address) in l.nodes ==> l' == l
  {
    l.(nodes := l.nodes + {netloc(address)})
  }

  /** Registering the same address twice is the same as registering it once. */
  lemma RegisterNodeIdempotent(l: Ledger, netloc: string -> string, address: string)
    ensures RegisterNode(RegisterNode(l, netloc, address), netloc, address) == RegisterNode(l, netloc, address)
  {
  }

  /** Registration order does not matter, and two addresses with the same
      network location register the same peer. */
  lemma RegisterNodeCommutes(l: Ledger, netloc: string -> string, a: string, b: string)
    ensures RegisterNode(RegisterNode(l, netloc, a), netloc, b) == RegisterNode(RegisterNode(l, netloc, b), netloc, a)
    ensures netloc(a) == netloc(b) ==> RegisterNode(l, netloc, a) == RegisterNode(l, netloc, b)
  {
  }
}

=== FILE: blocks.dfy ===
/** The block and transaction records of the ledger, the failure-carrying
    wrappers every operation returns, and the block fingerprint.

    SHA-256 and the canonical JSON serialisation are not interpreted: they are
    the two fields of a `Hasher` value that every operation receives, so each
    property proved here holds for any choice of them. */
module Blocks {

  datatype Option<+T> = None | Some(value: T)

  /** The ways the ledger code raises instead of returning. */
  datatype Fault =
    | EmptyChain        // `chain[0]` or `chain[-1]` on an empty list (IndexError)
    | PeerUnreachable   // `requests.get` raised while fetching a peer's chain

  datatype Result<+T> = Success(value: T) | Failure(error: Fault)

  /** One pending or sealed transfer; no field is validated. */
  datatype Transaction = Transaction(sender: string, recipient: string, amount: int)

  /** The `previous_hash` field holds a hex digest, except in the genesis block,
      where it is the integer sentinel 1. */
  datatype HashField = Num(n: int) | Text(s: string)

  /** Python truthiness of a value passed as `previous_hash`: `None`, `0` and
      `""` are false, so they make `new_block` fall back to hashing the tip. */
  predicate Truthy(p: Option<HashField>)
  {
    match p
    case None => false
    case Some(Num(n)) => n != 0
    case Some(Text(s)) => s != ""
  }

  /** The timestamp is an opaque value supplied by the caller (the clock is not
      modelled). */
  type Timestamp = int

  datatype Block = Block(
    index: int,
    timestamp: Timestamp,
    transactions: seq<Transaction>,
    proof: int,
    previousHash: HashField)

  /** `sha` stands for the SHA-256 hex digest of a string and `canon` for the
      key-sorted JSON serialisation of a block. */
  datatype Hasher = Hasher(sha: string -> string, canon: Block -> string)

  /** The fingerprint of a block. It is a function of the block VALUE, so the
      order in which a block's fields were written cannot change it. */
  function Hash(h: Hasher, b: Block): string
  {
    h.sha(h.canon(b))
  }
}

=== FILE: consensus.dfy ===
/** Conflict resolution: poll every registered peer for its chain and adopt
    the longest valid one that beats a running maximum.

    The peers' answers are an input sequence, one per registered node, in the
    order the node set is iterated; fetching them over the network is not
    modelled. */
module Consensus {
  import opened Blocks
  import opened Validation
  import opened Blockchain

  /** What fetching `/chain` from one peer gave: the request raised, or a
      status code with the reported `length` and `chain`. The reported length
      is trusted and never compared with the chain. */
  datatype Response =
    | Unreachable
    | Reply(status: int, length: int, chain: seq<Block>)

  /** The outcome of `resolve_conflicts`: whether the chain was replaced, and
      the ledger afterwards. */
  datatype Resolution = Resolution(replaced: bool, ledger: Ledger)

  /** A reply that would be adopted against the running maximum `best`. */
  predicate Qualifies(h: Hasher, r: Response, best: int)
  {
    && r.Reply?
    && r.status == 200
    && r.length > best
    && ChainValid(h, r.chain)
  }

  /** Reply `k` qualifies against `best`, no qualifying reply reports a longer
      length, and every earlier qualifying reply reports a shorter one. */
  predicate FirstLongest(h: Hasher, rs: seq<Response>, best: int, k: int)
  {
    && 0 <= k < |rs|
    && Qualifies(h, rs[k], best)
    && (forall j :: 0 <= j < |rs| && Qualifies(h, rs[j], best) ==> rs[j].length <= rs[k].length)
    && (forall j :: 0 <= j < k && Qualifies(h, rs[j], best) ==> rs[j].length < rs[k].length)
  }

  /** The loop of `resolve_conflicts`, with `maxLength` the running maximum and
      `newChain` the chain adopted so far. A status-200 reply longer than the
      maximum is validated; validating an empty chain raises. A reply that is
      not longer is not validated at all. */
  function Scan(h: Hasher, rs: seq<Response>, maxLength: int, newChain: Option<seq<Block>>)
    : (r: Result<Option<seq<Block>>>)
    ensures r.Success? ==> r.value == newChain || (r.value.Some? && ChainValid(h, r.value.value))
    decreases |rs|
  {
    if |rs| == 0 then Success(newChain)
    else
      match rs[0]
      case Unreachable => Failure(PeerUnreachable)
      case Reply(status, length, chain) =>
        if status == 200 && length > maxLength then
          if |chain| == 0 then Failure(EmptyChain)
          else if ChainValid(h, chain) then Scan(h, rs[1..], length, Some(chain))
          else Scan(h, rs[1..], maxLength, newChain)
        else
          Scan(h, rs[1..], maxLength, newChain)
  }

  /** `resolve_conflicts` with the running maximum seeded by `baseline`. */
  function Resolve(h: Hasher, l: Ledger, rs: seq<Response>, baseline: int): (r: Result<Resolution>)
    ensures r.Success? ==> r.value.ledger.pending == l.pending && r.value.ledger.nodes == l.nodes
    ensures r.Success? && !r.value.replaced ==> r.value.ledger == l
    ensures r.Success? && r.value.replaced ==> ChainValid(h, r.value.ledger.chain)
  {
    match Scan(h, rs, baseline, None)
    case Failure(e) => Failure(e)
    case Success(None) => Success(Resolution(false, l))
    case Success(Some(c)) => Success(Resolution(true, l.(chain := c)))
  }

  /** `resolve_conflicts` as written: the running maximum starts at the number
      of registered peers, not at the length of the local chain. */
  function ResolveConflicts(h: Hasher, l: Ledger, rs: seq<Response>): (r: Result<Resolution>)
    requires |rs| == |l.nodes|
    ensures r.Success? ==> r.value.ledger.pending == l.pending && r.value.ledger.nodes == l.nodes
    ensures r.Success? && !r.value.replaced ==> r.value.ledger == l
    ensures r.Success? && r.value.replaced ==> ChainValid(h, r.value.ledger.chain)
  {
    Resolve(h, l, rs, |l.nodes|)
  }

  /** `resolve_conflicts` with the running maximum seeded by the local chain's
      length, as the longest-chain rule intends. */
  function ResolveConflictsFromChainLength(h: Hasher, l: Ledger, rs: seq<Response>): (r: Result<Resolution>)
    requires |rs| == |l.nodes|
    ensures r.Success? ==> r.value.ledger.pending == l.pending && r.value.ledger.nodes == l.nodes
    ensures r.Success? && !r.value.replaced ==> r.value.ledger == l
    ensures r.Success? && r.value.replaced ==> ChainValid(h, r.value.ledger.chain)
  {
    Resolve(h, l, rs, |l.chain|)
  }

  /** Every peer is fetched, so one unreachable peer makes the whole pass
      raise. */
  lemma {:induction false} ScanFailsOnUnreachable(h: Hasher, rs: seq<Response>, m: int, best: Option<seq<Block>>, i: int)
    requires 0 <= i < |rs| && rs[i].Unreachable?
    ensures Scan(h, rs, m, best).Failure?
    decreases |rs|
  {
    if i > 0 && rs[0].Reply? {
      var tail := rs[1..];
      assert tail[i - 1] == rs[i];
      var r := rs[0];
      if r.status == 200 && r.length > m {
        if |r.chain| > 0 {
          if ChainValid(h, r.chain) {
            ScanFailsOnUnreachable(h, tail, r.length, Some(r.chain), i - 1);
          } else {
            ScanFailsOnUnreachable(h, tail, m, best, i - 1);
          }
        }
      } else {
        ScanFailsOnUnreachable(h, tail, m, best, i - 1);
      }
    }
  }

  /** When every peer answers, and every status-200 answer carries a
      non-empty chain, the pass does not raise. */
  lemma {:induction false} ScanSucceedsWithoutFaults(h: Hasher, rs: seq<Response>, m: int, best: Option<seq<Block>>)
    requires forall i :: 0 <= i < |rs| ==> rs[i].Reply? && (rs[i].status == 200 ==> |rs[i].chain| > 0)
    ensures Scan(h, rs, m, best).Success?
    decreases |rs|
  {
    if |rs| > 0 {
      var tail := rs[1..];
      assert forall i :: 0 <= i < |tail| ==> tail[i] == rs[i + 1];
      var r := rs[0];
      if r.status == 200 && r.length > m && ChainValid(h, r.chain) {
        ScanSucceedsWithoutFaults(h, tail, r.length, Some(r.chain));
      } else {
        ScanSucceedsWithoutFaults(h, tail, m, best);
      }
    }
  }

  /** If the first reply does not qualify, a first-longest reply of the rest
      is a first-longest reply of the whole sequence. */
  lemma FirstLongestShift(h: Hasher, rs: seq<Response>, m: int, k: int)
    requires |rs| > 0 && !Qualifies(h, rs[0], m)
    requires FirstLongest(h, rs[1..], m, k)
    ensures FirstLongest(h, rs, m, k + 1)
  {
  }

  /** If the first reply qualifies and sets the maximum to its length, then
      whatever the rest of the pass adopts is the first-longest qualifying
      reply of the whole sequence. */
  lemma FirstLongestAfterAdopt(h: Hasher, rs: seq<Response>, m: int, k: int)
    requires |rs| > 0 && Qualifies(h, rs[0], m)
    requires FirstLongest(h, rs[1..], rs[0].length, k)
    ensures FirstLongest(h, rs, m, k + 1)
  {
  }

  /** If the first reply qualifies and no later reply beats its length, it is
      the first-longest qualifying reply. */
  lemma FirstLongestHead(h: Hasher, rs: seq<Response>, m: int)
    requires |rs| > 0 && Qualifies(h, rs[0], m)
    requires forall i :: 0 <= i < |rs[1..]| ==> !Qualifies(h, rs[1..][i], rs[0].length)
    ensures FirstLongest(h, rs, m, 0)
  {
    var tail := rs[1..];
    forall j | 0 <= j < |rs| && Qualifies(h, rs[j], m)
      ensures rs[j].length <= rs[0].length
    {
      if j > 0 {
        assert rs[j] == tail[j - 1];
      }
    }
  }

  /** What a successful pass returns: the chain it started with when no reply
      qualifies, otherwise the chain of the first reply with the largest
      qualifying length. */
  lemma {:induction false} ScanSelects(h: Hasher, rs: seq<Response>, m: int, best: Option<seq<Block>>)
    requires Scan(h, rs, m, best).Success?
    ensures var r := Scan(h, rs, m, best).value;
            || (r == best && forall i :: 0 <= i < |rs| ==> !Qualifies(h, rs[i], m))
            || exists k :: FirstLongest(h, rs, m, k) && r == Some(rs[k].chain)
    decreases |rs|
  {
    if |rs| > 0 {
      var tail := rs[1..];
      assert forall i :: 0 <= i < |tail| ==> tail[i] == rs[i + 1];
      var r := Scan(h, rs, m, best).value;
      if Qualifies(h, rs[0], m) {
        var len := rs[0].length;
        assert Scan(h, rs, m, best) == Scan(h, tail, len, Some(rs[0].chain));
        ScanSelects(h, tail, len, Some(rs[0].chain));
        if r == Some(rs[0].chain) && forall i :: 0 <= i < |tail| ==> !Qualifies(h, tail[i], len) {
          FirstLongestHead(h, rs, m);
        } else {
          var k :| FirstLongest(h, tail, len, k) && r == Some(tail[k].chain);
          FirstLongestAfterAdopt(h, rs, m, k);
        }
      } else {
        assert Scan(h, rs, m, best) == Scan(h, tail, m, best);
        ScanSelects(h, tail, m, best);
        if r == best && forall i :: 0 <= i < |tail| ==> !Qualifies(h, tail[i], m) {
        } else {
          var k :| FirstLongest(h, tail, m, k) && r == Some(tail[k].chain);
          FirstLongestShift(h, rs, m, k);
        }
      }
    }
  }

  /** The local chain is replaced exactly when some peer sent a status-200
      reply, longer than the baseline, whose chain is valid; the adopted chain
      is that of the first such reply with the largest reported length. */
  lemma ResolveReplacesIff(h: Hasher, l: Ledger, rs: seq<Response>, baseline: int)
    requires Resolve(h, l, rs, baseline).Success?
    ensures var res := Resolve(h, l, rs, baseline).value;
            && (res.replaced <==> exists i :: 0 <= i < |rs| && Qualifies(h, rs[i], baseline))
            && (res.replaced ==> exists k :: FirstLongest(h, rs, baseline, k) && res.ledger == l.(chain := rs[k].chain))
  {
    ScanSelects(h, rs, baseline, None);
  }

  /** The outcome under the seeding written in blockchain.py: replaced exactly when some valid
      status-200 reply reports more than the number of registered peers. */
  lemma ResolveConflictsReplacesIff(h: Hasher, l: Ledger, rs: seq<Response>)
    requires |rs| == |l.nodes|
    requires ResolveConflicts(h, l, rs).Success?
    ensures var res := ResolveConflicts(h, l, rs).value;
            && (res.replaced <==> exists i :: 0 <= i < |rs| && Qualifies(h, rs[i], |l.nodes|))
            && (res.replaced ==> exists k :: FirstLongest(h, rs, |l.nodes|, k) && res.ledger == l.(chain := rs[k].chain))
  {
    ResolveReplacesIff(h, l, rs, |l.nodes|);
  }

  /** A pass that raises met an unreachable peer or a status-200 reply with
      an empty chain. */
  lemma {:induction false} ScanFaultHasCause(h: Hasher, rs: seq<Response>, m: int, best: Option<seq<Block>>)
    requires Scan(h, rs, m, best).Failure?
    ensures exists i :: 0 <= i < |rs| && Faulty(rs[i])
    decreases |rs|
  {
    var r := rs[0];
    if r.Reply? && !Faulty(r) {
      var tail := rs[1..];
      if r.status == 200 && r.length > m && ChainValid(h, r.chain) {
        ScanFaultHasCause(h, tail, r.length, Some(r.chain));
      } else {
        ScanFaultHasCause(h, tail, m, best);
      }
      var i :| 0 <= i < |tail| && Faulty(tail[i]);
      assert rs[i + 1] == tail[i];
    }
  }

  /** A peer answer that can make the pass raise: none at all, or a
      status-200 reply whose chain is empty. */
  predicate Faulty(r: Response)
  {
    r.Unreachable? || (r.status == 200 && |r.chain| == 0)
  }

  /** `resolve_conflicts` raises on any unreachable peer, reports an outcome
      when no answer is faulty, and raises only when some answer is. */
  lemma ResolveConflictsFaults(h: Hasher, l: Ledger, rs: seq<Response>)
    requires |rs| == |l.nodes|
    ensures (exists i :: 0 <= i < |rs| && rs[i].Unreachable?) ==> ResolveConflicts(h, l, rs).Failure?
    ensures (forall i :: 0 <= i < |rs| ==> rs[i].Reply? && (rs[i].status == 200 ==> |rs[i].chain| > 0))
            ==> ResolveConflicts(h, l, rs).Success?
    ensures ResolveConflicts(h, l, rs).Failure? ==> exists i :: 0 <= i < |rs| && Faulty(rs[i])
  {
    if Scan(h, rs, |l.nodes|, None).Failure? {
      ScanFaultHasCause(h, rs, |l.nodes|, None);
    }
    if i :| 0 <= i < |rs| && rs[i].Unreachable? {
      ScanFailsOnUnreachable(h, rs, |l.nodes|, None, i);
    }
    if forall i :: 0 <= i < |rs| ==> rs[i].Reply? && (rs[i].status == 200 ==> |rs[i].chain| > 0) {
      ScanSucceedsWithoutFaults(h, rs, |l.nodes|, None);
    }
  }

  /** A node with one registered peer that serves a valid chain of more than
      one block, reported with its true length, adopts that chain. */
  lemma SinglePeerLongerChainAdopted(h: Hasher, l: Ledger, c: seq<Block>)
    requires |l.nodes| == 1
    requires ChainValid(h, c) && |c| > 1
    ensures ResolveConflicts(h, l, [Reply(200, |c|, c)]) == Success(Resolution(true, l.(chain := c)))
  {
    var rs := [Reply(200, |c|, c)];
    assert Scan(h, rs[1..], |c|, Some(c)) == Success(Some(c));
  }

  /** The seeding quirk: when every peer serves the same valid chain, longer
      than the local one but no longer than the number of peers, the code as
      written keeps the local chain while seeding from the local length adopts it. */
  lemma BaselineQuirk(h: Hasher, l: Ledger, c: seq<Block>)
    requires ChainValid(h, c)
    requires |l.chain| < |c| <= |l.nodes|
    ensures var rs := seq(|l.nodes|, i => Reply(200, |c|, c));
            && ResolveConflicts(h, l, rs) == Success(Resolution(false, l))
            && ResolveConflictsFromChainLength(h, l, rs) == Success(Resolution(true, l.(chain := c)))
  {
    var rs := seq(|l.nodes|, i => Reply(200, |c|, c));
    ScanSucceedsWithoutFaults(h, rs, |l.nodes|, None);
    ResolveReplacesIff(h, l, rs, |l.nodes|);
    ScanSucceedsWithoutFaults(h, rs, |l.chain|, None);
    assert Qualifies(h, rs[0], |l.chain|);
    ResolveReplacesIff(h, l, rs, |l.chain|);
  }

  /** Seeded from the local length, a replacement always brings a valid chain
      whose reported length is greater than the local chain's; with honest
      reports the new chain is strictly longer. */
  lemma ResolveFromChainLengthGrows(h: Hasher, l: Ledger, rs: seq<Response>)
    requires |rs| == |l.nodes|
    requires ResolveConflictsFromChainLength(h, l, rs).Success?
    requires forall i :: 0 <= i < |rs| && rs[i].Reply? ==> rs[i].length == |rs[i].chain|
    ensures var res := ResolveConflictsFromChainLength(h, l, rs).value;
            && (res.replaced <==> exists i :: 0 <= i < |rs| && Qualifies(h, rs[i], |l.chain|))
            && (res.replaced ==> |res.ledger.chain| > |l.chain|)
  {
    ResolveReplacesIff(h, l, rs, |l.chain|);
  }
}

=== FILE: mining.dfy ===
/** The `mine` sequence: solve the puzzle for the tip's proof, put the reward
    transaction into the pool, then seal a new block on top of the tip. */
module Mining {
  import opened Blocks
  import opened Puzzle
  import opened Validation
  import opened Blockchain

  /** The reward comes from the sender "0", standing for the network. */
  const RewardSender: string := "0"
  const MiningReward: int := 1

  /** The transaction that pays this node, identified by `nodeId`, for a block. */
  function Reward(nodeId: string): Transaction
  {
    Transaction(RewardSender, nodeId, MiningReward)
  }

  /** The part of `mine` after the proof is found: `new_transaction` for the
      reward, then `new_block(proof)` with no explicit previous hash. */
  function Seal(h: Hasher, l: Ledger, proof: int, nodeId: string, timestamp: Timestamp): (r: (Ledger, Block))
    requires |l.chain| > 0
    ensures var (l', b) := r;
      && l'.chain == l.chain + [b]
      && l'.nodes == l.nodes
      && l'.pending == l.pending + [Reward(nodeId)]
      && b.index == |l.chain| + 1
      && b.timestamp == timestamp
      && b.transactions == l'.pending
      && b.proof == proof
      && b.previousHash == Text(Hash(h, LastBlock(l)))
      && (Indexed(l.chain) ==> Indexed(l'.chain))
  {
    var (l1, _) := NewTransaction(l, RewardSender, nodeId, MiningReward);
    NewBlock(h, l1, proof, None, timestamp).value
  }

  /** Sealing a block whose proof is valid for the tip keeps a valid chain
      valid. */
  lemma {:induction false} SealPreservesValidity(h: Hasher, l: Ledger, proof: int, nodeId: string, timestamp: Timestamp)
    requires ChainValid(h, l.chain)
    requires ValidProof(h.sha, LastBlock(l).proof, proof)
    ensures ChainValid(h, Seal(h, l, proof, nodeId, timestamp).0.chain)
  {
    var sealed := Seal(h, l, proof, nodeId, timestamp);
    AppendLinked(h, l.chain, sealed.1, sealed.0.chain);
  }

  /** `mine`: the least valid proof for the tip's proof, then the reward, then
      the block. `bound` is any valid proof for the tip; it only guarantees
      that the search ends. */
  method Mine(h: Hasher, l: Ledger, nodeId: string, timestamp: Timestamp, ghost bound: nat)
    returns (l': Ledger, b: Block)
    requires |l.chain| > 0
    requires ValidProof(h.sha, LastBlock(l).proof, bound)
    ensures b.proof >= 0 && IsLeastProof(h.sha, LastBlock(l).proof, b.proof)
    ensures l'.chain == l.chain + [b]
    ensures l'.nodes == l.nodes
    ensures l'.pending == l.pending + [Reward(nodeId)]
    ensures b.index == |l.chain| + 1
    ensures b.timestamp == timestamp
    ensures b.transactions == l'.pending
    ensures b.previousHash == Text(Hash(h, LastBlock(l)))
    ensures ChainValid(h, l.chain) ==> ChainValid(h, l'.chain)
    ensures Indexed(l.chain) ==> Indexed(l'.chain)
  {
    var last := LastBlock(l);
    var proof := ProofOfWork(h.sha, last.proof, bound);
    var sealed := Seal(h, l, proof, nodeId, timestamp);
    l', b := sealed.0, sealed.1;
    if ChainValid(h, l.chain) {
      SealPreservesValidity(h, l, proof, nodeId, timestamp);
    }
  }

  /** Mining twice from the same ledger, with the same inputs, yields the same
      block: the proof search is deterministic. */
  lemma MineDeterministic(h: Hasher, l: Ledger, p1: nat, p2: nat, nodeId: string, timestamp: Timestamp)
    requires |l.chain| > 0
    requires IsLeastProof(h.sha, LastBlock(l).proof, p1)
    requires IsLeastProof(h.sha, LastBlock(l).proof, p2)
    ensures Seal(h, l, p1, nodeId, timestamp) == Seal(h, l, p2, nodeId, timestamp)
  {
  }

  /** One transfer submitted to a fresh ledger, then one block mined: the chain
      has two blocks and the new one holds the transfer and then the reward. */
  lemma SubmitThenMineFromGenesis(h: Hasher, t0: Timestamp, t1: Timestamp, sender: string, recipient: string,
                                  amount: int, nodeId: string, proof: int)
    ensures var l0 := Init(h, t0);
            var (l1, k) := NewTransaction(l0, sender, recipient, amount);
            var (l2, b) := Seal(h, l1, proof, nodeId, t1);
            && k == 2
            && |l2.chain| == 2
            && b.index == 2
            && b.transactions == [Transaction(sender, recipient, amount), Reward(nodeId)]
  {
  }

  /** The chain as the Python code sees it when it hashes or serves a
      locally built chain: every block's `transactions` is one shared list,
      the live pending pool. */
  function AliasedView(l: Ledger): seq<Block>
  {
    seq(|l.chain|, i requires 0 <= i < |l.chain| => l.chain[i].(transactions := l.pending))
  }

  /** With the shared pool, submitting a transaction changes what every block
      already on the chain shows: each gains the transaction at its end, while
      the chain and every other field stay as they were. */
  lemma NewTransactionRewritesSealedBlocks(l: Ledger, sender: string, recipient: string, amount: int)
    requires |l.chain| > 0
    ensures var after := AliasedView(NewTransaction(l, sender, recipient, amount).0);
            && |after| == |AliasedView(l)|
            && forall i :: 0 <= i < |after| ==>
                 && after[i].transactions == AliasedView(l)[i].transactions + [Transaction(sender, recipient, amount)]
                 && after[i].(transactions := []) == AliasedView(l)[i].(transactions := [])
  {
  }

  /** The `mine` sequence as written: the reward joins the shared pool before
      `new_block` hashes the tip, so the stored link is the digest of the tip
      showing the pool as it is at that moment. */
  function SealAliased(h: Hasher, l: Ledger, proof: int, nodeId: string, timestamp: Timestamp): (l': Ledger)
    requires |l.chain| > 0
    ensures |l'.chain| == |l.chain| + 1 && l'.chain[..|l.chain|] == l.chain
    ensures l'.nodes == l.nodes
    ensures l'.pending == l.pending + [Reward(nodeId)]
    ensures l'.chain[|l.chain|].index == |l.chain| + 1
    ensures l'.chain[|l.chain|].proof == proof
    ensures l'.chain[|l.chain|].timestamp == timestamp
    ensures l'.chain[|l.chain|].transactions == l'.pending
    ensures l'.chain[|l.chain|].previousHash == Text(Hash(h, AliasedView(l')[|l.chain| - 1]))
    ensures Indexed(l.chain) ==> Indexed(l'.chain)
  {
    var pool := l.pending + [Reward(nodeId)];
    var tip := LastBlock(l).(transactions := pool);
    var b := Block(|l.chain| + 1, timestamp, pool, proof, Text(Hash(h, tip)));
    assert (l.chain + [b])[..|l.chain|] == l.chain;
    Ledger(l.chain + [b], pool, l.nodes)
  }

  /** With the shared pool, the second block mined makes the node's own chain
      invalid: the first mined block links to the genesis block as it looked
      with one reward, but the genesis block now shows two. Only a hash that
      tells these two genesis views apart is assumed. */
  lemma AliasingBreaksLocalChain(h: Hasher, t0: Timestamp, t1: Timestamp, t2: Timestamp, nodeId: string,
                                 p1: int, p2: int)
    requires var g := Init(h, t0).chain[0];
             Hash(h, g.(transactions := [Reward(nodeId)])) != Hash(h, g.(transactions := [Reward(nodeId), Reward(nodeId)]))
    ensures var l1 := SealAliased(h, Init(h, t0), p1, nodeId, t1);
            && (ValidProof(h.sha, GenesisProof, p1) ==> ChainValid(h, AliasedView(l1)))
            && !ChainValid(h, AliasedView(SealAliased(h, l1, p2, nodeId, t2)))
  {
    var l0 := Init(h, t0);
    var l1 := SealAliased(h, l0, p1, nodeId, t1);
    var l2 := SealAliased(h, l1, p2, nodeId, t2);
    var v1 := AliasedView(l1);
    var v2 := AliasedView(l2);
    assert l1.pending == [Reward(nodeId)];
    assert l2.pending == [Reward(nodeId), Reward(nodeId)];
    assert v1[0] == l0.chain[0].(transactions := [Reward(nodeId)]);
    assert v2[0] == l0.chain[0].(transactions := [Reward(nodeId), Reward(nodeId)]);
    assert l2.chain[1] == l1.chain[1];
    assert !Linked(h, v2[0], v2[1]);
  }
}

=== FILE: proof_of_work.dfy ===
/** The proof-of-work puzzle: a proof is valid for the previous block's proof
    when the digest of the two numbers written one after the other in decimal
    starts with four zero characters; mining searches for the least such proof. */
module Puzzle {

  /** The required digest prefix (difficulty 4). */
  const Difficulty: string := "0000"

  /** The character of a decimal digit. */
  function DigitChar(d: int): (c: char)
    requires 0 <= d < 10
    ensures '0' <= c <= '9'
  {
    ('0' as int + d) as char
  }

  /** The value of a decimal digit character. */
  function DigitValue(c: char): int
  {
    c as int - '0' as int
  }

  /** Decimal rendering of a natural number, most significant digit first. */
  function NatDigits(n: nat): (s: string)
    ensures |s| > 0
    ensures forall i :: 0 <= i < |s| ==> '0' <= s[i] <= '9'
    ensures s[0] == '0' ==> n == 0
    decreases n
  {
    if n < 10 then [DigitChar(n)] else NatDigits(n / 10) + [DigitChar(n % 10)]
  }

  /** Python's `f'{n}'` for an integer: a minus sign before the digits of a
      negative number. */
  function Decimal(n: int): (s: string)
    ensures |s| > 0
    ensures s[0] == '-' <==> n < 0
  {
    if n < 0 then "-" + NatDigits(-n) else NatDigits(n)
  }

  /** Reads back a string of decimal digits. */
  function ParseDigits(s: string): int
  {
    if |s| == 0 then 0 else 10 * ParseDigits(s[..|s| - 1]) + DigitValue(s[|s| - 1])
  }

  /** Reads back an optionally signed decimal string. */
  function ParseDecimal(s: string): int
  {
    if |s| > 0 && s[0] == '-' then -ParseDigits(s[1..]) else ParseDigits(s)
  }

  lemma {:induction false} NatDigitsRoundTrip(n: nat)
    ensures ParseDigits(NatDigits(n)) == n
    decreases n
  {
    if n >= 10 {
      var prefix := NatDigits(n / 10);
      var s := prefix + [DigitChar(n % 10)];
      assert s[..|s| - 1] == prefix;
      NatDigitsRoundTrip(n / 10);
    }
  }

  /** The decimal rendering loses nothing: reading it back gives the number. */
  lemma DecimalRoundTrip(n: int)
    ensures ParseDecimal(Decimal(n)) == n
  {
    if n < 0 {
      assert Decimal(n)[1..] == NatDigits(-n);
      NatDigitsRoundTrip(-n);
    } else {
      NatDigitsRoundTrip(n);
    }
  }

  /** The string hashed by `valid_proof`: both numbers in decimal, no separator. */
  function Guess(lastProof: int, proof: int): string
  {
    Decimal(lastProof) + Decimal(proof)
  }

  /** `valid_proof`: the first four characters of the digest are "0000". A
      digest shorter than four characters has a shorter slice, which never
      equals "0000". */
  predicate ValidProof(sha: string -> string, lastProof: int, proof: int)
  {
    var digest := sha(Guess(lastProof, proof));
    |digest| >= |Difficulty| && digest[..|Difficulty|] == Difficulty
  }

  /** `proof` is the least non-negative valid proof for `lastProof`. */
  predicate IsLeastProof(sha: string -> string, lastProof: int, proof: nat)
  {
    && ValidProof(sha, lastProof, proof)
    && forall q :: 0 <= q < proof ==> !ValidProof(sha, lastProof, q)
  }

  /** Reference definition of the search: the first valid proof at or after
      `from`, given a valid proof `bound` that ends the search. */
  function LeastProofFrom(sha: string -> string, lastProof: int, from: nat, bound: nat): (r: nat)
    requires from <= bound && ValidProof(sha, lastProof, bound)
    ensures from <= r <= bound
    ensures ValidProof(sha, lastProof, r)
    ensures forall q :: from <= q < r ==> !ValidProof(sha, lastProof, q)
    decreases bound - from
  {
    if ValidProof(sha, lastProof, from) then from
    else LeastProofFrom(sha, lastProof, from + 1, bound)
  }

  /** `proof_of_work`: counts up from 0 until `valid_proof` holds. The search
      ends only because a valid proof exists; `bound` is one of them, used
      for termination and never read. */
  method ProofOfWork(sha: string -> string, lastProof: int, ghost bound: nat) returns (proof: nat)
    requires ValidProof(sha, lastProof, bound)
    ensures proof <= bound
    ensures ValidProof(sha, lastProof, proof)
    ensures forall q :: 0 <= q < proof ==> !ValidProof(sha, lastProof, q)
  {
    proof := 0;
    while !ValidProof(sha, lastProof, proof)
      invariant proof <= bound
      invariant forall q :: 0 <= q < proof ==> !ValidProof(sha, lastProof, q)
      decreases bound - proof
    {
      proof := proof + 1;
    }
  }

  /** There is only one least proof, so the search is deterministic: whichever
      valid proof bounds it, the answer is the reference search from 0. */
  lemma LeastProofUnique(sha: string -> string, lastProof: int, p: nat, bound: nat)
    requires IsLeastProof(sha, lastProof, p)
    requires ValidProof(sha, lastProof, bound)
    ensures p == LeastProofFrom(sha, lastProof, 0, bound)
  {
  }

  /** The puzzle input has no separator, so different pairs of numbers can
      share it: a proof of 23 after 1 is valid exactly when a proof of 3
      after 12 is. */
  lemma GuessAmbiguous(sha: string -> string)
    ensures Guess(1, 23) == Guess(12, 3) == "123"
    ensures ValidProof(sha, 1, 23) == ValidProof(sha, 12, 3)
  {
  }
}

=== FILE: validation.dfy ===
/** The chain validator: every block after the first must name the digest of
    its predecessor and carry a proof that is valid for its predecessor's
    proof. Block indices and timestamps are not checked. */
module Validation {
  import opened Blocks
  import opened Puzzle

  /** The two checks `valid_chain` makes on an adjacent pair. */
  predicate Linked(h: Hasher, prev: Block, cur: Block)
  {
    && cur.previousHash == Text(Hash(h, prev))
    && ValidProof(h.sha, prev.proof, cur.proof)
  }

  /** Reference definition: a non-empty chain whose every adjacent pair is
      linked. A one-block chain is valid whatever it holds. */
  predicate ChainValid(h: Hasher, c: seq<Block>)
  {
    && |c| > 0
    && forall i :: 1 <= i < |c| ==> Linked(h, c[i - 1], c[i])
  }

  /** `valid_chain`: one left-to-right pass that stops at the first broken
      pair. Reading `chain[0]` of an empty chain raises. */
  method ValidChain(h: Hasher, c: seq<Block>) returns (r: Result<bool>)
    ensures r.Failure? <==> |c| == 0
    ensures r.Failure? ==> r.error == EmptyChain
    ensures r.Success? ==> (r.value <==> ChainValid(h, c))
  {
    if |c| == 0 {
      return Failure(EmptyChain);
    }
    var last := c[0];
    var i := 1;
    while i < |c|
      invariant 1 <= i <= |c|
      invariant last == c[i - 1]
      invariant forall j :: 1 <= j < i ==> Linked(h, c[j - 1], c[j])
    {
      var block := c[i];
      if block.previousHash != Text(Hash(h, last)) {
        return Success(false);
      }
      if !ValidProof(h.sha, last.proof, block.proof) {
        return Success(false);
      }
      last := block;
      i := i + 1;
    }
    return Success(true);
  }

  /** Validity is closed under non-empty prefixes. */
  lemma PrefixValid(h: Hasher, c: seq<Block>, k: nat)
    requires ChainValid(h, c)
    requires 1 <= k <= |c|
    ensures ChainValid(h, c[..k])
  {
  }

  /** Extending a valid chain by a block linked to its tip keeps it valid, and
      only such a block does. */
  lemma AppendValid(h: Hasher, c: seq<Block>, b: Block)
    requires ChainValid(h, c)
    ensures ChainValid(h, c + [b]) <==> Linked(h, c[|c| - 1], b)
  {
    var c' := c + [b];
    if Linked(h, c[|c| - 1], b) {
      forall i | 1 <= i < |c'|
        ensures Linked(h, c'[i - 1], c'[i])
      {
        if i < |c| {
          assert c'[i - 1] == c[i - 1] && c'[i] == c[i];
        }
      }
    } else {
      assert !Linked(h, c'[|c| - 1], c'[|c|]);
    }
  }

  /** The direction of `AppendValid` that block producers use, stated for a
      chain already known to be the extended one. */
  lemma AppendLinked(h: Hasher, c: seq<Block>, b: Block, c': seq<Block>)
    requires ChainValid(h, c)
    requires b.previousHash == Text(Hash(h, c[|c| - 1]))
    requires ValidProof(h.sha, c[|c| - 1].proof, b.proof)
    requires c' == c + [b]
    ensures ChainValid(h, c')
  {
    AppendValid(h, c, b);
  }

  /** Replacing a non-genesis block by one whose hash link or proof check
      against its predecessor fails makes the chain invalid. */
  lemma TamperedChainInvalid(h: Hasher, c: seq<Block>, i: nat, b: Block)
    requires 1 <= i < |c|
    requires b.previousHash != Text(Hash(h, c[i - 1])) || !ValidProof(h.sha, c[i - 1].proof, b.proof)
    ensures !ChainValid(h, c[i := b])
  {
    assert !Linked(h, c[i := b][i - 1], c[i := b][i]);
  }
}
